=== FILE: README.md ===
# OAuth token lifecycle and token-table provisioning, in Dafny

This project models the core of an OAuth function template. The core keeps one token row per identity in a datastore table named "OAuth Table". It creates that table and its four columns the first time they are needed. On `/refresh` it decides whether a stored token is valid forever, empty, due for a refresh or still fresh. It also handles storing an externally obtained token (`/token`), logging out (`/logout`), and keeping one shared client-credentials token fresh (`/refreshClientCredentials`).

Every I/O step becomes an input: the GraphQL results of provisioning, the row read, the inner-authorization probe, the provider's refresh or grant, and the result of the write. Each handler is then a pure function. It takes the request, the clock (integer milliseconds since 1970-01-01T00:00:00.000Z), the configuration and those outcomes. It returns an `Effect`, which records:

- the reply (a status and a body kind, or `Unhandled` when the handler's promise rejects without sending anything);
- the provisioning queries issued;
- the rows read and the writes issued;
- whether the OAuth provider was called;
- whether the inner-authorization probe ran.

A map from external id to row (`TokenStore.ApplyWrite`) connects one call to the next. The `Lifecycle` lemmas use it to state what a later call sees after an earlier one.

Modules:

- `Common`: option and result types, JavaScript truthiness of an optional string, `indexOf`, and the subsequence relation.
- `Queries`: the table name, the four column descriptors, and the kinds of provisioning queries.
- `Table`: provisioning, meaning the table lookup, table creation, the column diff and the column batch.
- `TokenStore`: rows, writes, and the map picture of the table.
- `Responses`: replies and effects.
- `AuthorizationCode`: `/refresh`, `/token` and `/logout`.
- `ClientCredentials`: `/refreshClientCredentials`.
- `Lifecycle`: properties that span two handler calls.

## Model

| member | source | states |
|---|---|---|
| Common.IndexOf | handlers/authorizationCode.js:119 | `indexOf` returns -1 exactly when the text does not occur. Otherwise it returns a position where the text occurs, and there is no earlier one. |
| Queries.LookupsAndCreationShareTableName | datastore/queries.js:1-54 | The table lookup, the column lookup and the table creation all name the same table, "OAuth Table". |
| Queries.RequiredColumnNames | datastore/queries.js:93-98 | There are exactly four required columns, accessToken, access_expires_at, refreshToken and errorCode, in that order, with pairwise distinct names. |
| Queries.RequiredColumnTypes | datastore/queries.js:56-91 | accessToken and refreshToken are encrypted TEXT of length 4096. access_expires_at is DATETIME. errorCode is an INTEGER NUMBER. |
| Table.MissingColumns | datastore/table.js:50-54 | The column diff, parameterised by how a column's key is read. A column is kept exactly when its key is not among the lookup's values, and the kept columns stay in their original order. |
| Table.ColumnsToCreateAsWritten | datastore/table.js:56-69 | The columns to create as the code computes them. Zero existing columns schedule all four. Exactly four existing columns, whatever their names, schedule none. Whatever branch applies, the result is an order-preserving selection of the required columns. |
| Table.AsWrittenDiffNeverExcludes | datastore/table.js:50-54 | Whenever the count is not four, the as-written diff schedules every required column. This holds even for columns that already exist, because `column.name` is undefined on a descriptor and never equals a `{name}` record. |
| Table.AsWrittenRecreatesExistingColumns | datastore/table.js:50-54 | If accessToken and refreshToken already exist, the code schedules all four columns. The named diff schedules only access_expires_at and errorCode. |
| Table.CountShortcutIgnoresNames | datastore/table.js:60-64 | Four existing columns with unrelated names get no column created. The named diff would create all four. |
| Table.ColumnsToCreate | datastore/table.js:56-69 | The corrected diff. A required column is scheduled exactly when its name is not among the existing names, and the scheduled columns keep the required order. |
| Table.ColumnsToCreateNoneMatching | datastore/table.js:61-62 | If no required name exists (in particular, zero existing columns), all required columns are scheduled in order. |
| Table.ColumnsToCreateOfTwo | datastore/table.js:56-69 | Existing {accessToken, refreshToken} gives exactly [access_expires_at, errorCode]. |
| Table.ColumnsToCreateCompletesTheSet | datastore/table.js:56-69 | After the scheduled columns are created, every required column exists. |
| Table.CreationQueries | datastore/table.js:82-85 | There is one creation query per scheduled column, in order, and each carries the table id. |
| Table.SomeResultContainsError | datastore/table.js:89 | `results.some(resultContainsError)`, where `resultContainsError` (table.js:46-48, `Table.ResultContainsError`) tests a result for `errors`. The check is true exactly when some column's creation result carries errors. |
| Table.CreateColumnsBatch | datastore/table.js:78-94 | An empty list issues no query and returns the table id. Otherwise every query carries the table id, and the batch returns the id exactly when no result has errors; if any result has errors, the whole batch is rejected. |
| Table.CreateOAuthTableColumns | datastore/table.js:56-96 | The column pass as the code runs it. One column lookup comes first, and an unreadable lookup rejects. Four existing columns, whatever their names, create nothing and return the id. Any other count creates all four required columns in order, existing or not, each carrying the id. The pass returns the id exactly when no required column's creation has errors. |
| Table.CreateOAuthTableColumnsByName | datastore/table.js:71-96 | The corrected column pass. A required column gets a creation query carrying the id exactly when its name is not among the existing names. |
| Table.CreateOAuthTable | datastore/table.js:28-44 | Issues one creation query for "OAuth Table". A result with errors rejects with its first error. Otherwise the result is the created table's id. |
| Table.SetupOAuthTable | datastore/table.js:4-26 | Setup as the code runs it, and the one the handlers use. If the lookup finds the table, with or without errors, its id is returned after that single query. If the lookup reports errors and a node with a null table, the table is created, and a creation error rejects with that error. Once the table is created, setup's result and remaining queries are exactly those of the code's column pass (`Table.CreateOAuthTableColumns`), so its rejections propagate out of setup. A null node, or a null table without errors, is rejected after the lookup. |
| Table.SetupColumnPassAsWritten | datastore/table.js:16-19 | Setup of a table it has just created, per column-lookup outcome. A lookup that holds no table rejects. Four existing columns, whatever their names, create nothing and return the id. Any other count creates all four required columns, existing or not. Setup then succeeds exactly when none of them fails, and otherwise rejects with the column-creation error. |
| Table.SetupOAuthTableByName | datastore/table.js:4-26 | The corrected setup. A successful creation pass creates a required column exactly when it does not already exist, so every required column ends up existing or created. |
| Table.SetupsAgreeWithoutRequiredColumns | datastore/table.js:56-69 | The code's setup and the corrected one give the same result and queries whenever the column lookup holds none of the required names and not exactly four columns. In particular they agree on a freshly created table with no columns. |
| Table.ExistingTableNeverRechecked | datastore/table.js:11-25 | For a found table, setup issues no column or creation query, and its outcome does not depend on the table's actual columns. |
| Table.SecondSetupCreatesNothing | datastore/table.js:12-24 | After a successful pass, a lookup that finds the created table returns its id with zero creation queries. |
| AuthorizationCode.GetStorageTokenInfo | handlers/authorizationCode.js:110-116 | `service_account == 'true'` selects the shared `serviceAccount` row and does not return the token. Any other value selects the caller's username and returns the token. |
| AuthorizationCode.DistinctUsersDistinctRows | handlers/authorizationCode.js:110-116 | Two callers share a row only if both are service accounts or both have the same username. This excludes a username equal to the sentinel key. |
| AuthorizationCode.CouldNotFindData | handlers/authorizationCode.js:118-120 | True exactly when the first error message contains "Could not find data". |
| AuthorizationCode.InnerAuthorizationAccepted | handlers/authorizationCode.js:55-72 | The probe accepts only an ok response. A non-ok response or a failed fetch rejects, so the probe fails closed. |
| AuthorizationCode.IsEmptyToken | handlers/authorizationCode.js:126-130 | A row is empty exactly when either token is missing, null or "". |
| AuthorizationCode.IsAccessTokenValidForever | handlers/authorizationCode.js:132-134 | A valid-forever row has a truthy access token and the epoch expiry. Every such row is also empty, which is why this test must run before the empty test. |
| AuthorizationCode.DoesTokenNeedRefresh | handlers/authorizationCode.js:136-147 | The comparison in seconds (dividing by 1000) is equivalent to `now >= expiry - 300000` in milliseconds. |
| AuthorizationCode.RefreshDecision | handlers/authorizationCode.js:74-93 | Each of the four outcomes is characterised on the raw fields. Valid-forever comes before empty, empty before the window check, and fresh means outside the window. |
| AuthorizationCode.DecisionClockIndependence | handlers/authorizationCode.js:75-80 | Whether a row is valid forever or empty does not depend on the clock. |
| AuthorizationCode.NeedsRefreshIsMonotone | handlers/authorizationCode.js:136-147 | Once a token needs refreshing, it still needs it at every later instant. |
| AuthorizationCode.RefreshWindowScenarios | handlers/authorizationCode.js:136-147 | A token expiring in 600 s is fresh. A token expiring in 100 s needs a refresh. |
| AuthorizationCode.EmptyTokenFields | handlers/authorizationCode.js:271-277 | The logout placeholder has empty tokens and the module-load timestamp, and it leaves errorCode alone. It is the same on every call. |
| AuthorizationCode.StoreTokenData | handlers/authorizationCode.js:150-167 | Upserts the token's three fields under the caller's row. The body is sent only if the upsert is ok: the token object for users, "" for the service account. |
| AuthorizationCode.StandardAuthorizationResponse | handlers/authorizationCode.js:74-108 | Valid forever gives 200 with no body, and empty gives 204. Both skip the provider and write nothing. Fresh gives 200 with the stored token for users and "" for the service account, with no write. Needs-refresh calls the provider. A rejected refresh gives 401 with no write. A successful refresh upserts under the same row and gives 200 only if that write is ok, and 401 otherwise. |
| AuthorizationCode.RefreshHandler | handlers/authorizationCode.js:24-53 | A failed setup rejects with nothing read or written. The read uses the caller's identity. A failed read gives 401 or 500 depending on the not-found text, and writes nothing. The probe runs exactly for a configured URL and a truthy stored token. A rejecting probe overwrites the row with `emptyToken` and gives 204 with no refresh. Otherwise the standard policy applies, and every write goes to the caller's row. |
| AuthorizationCode.AcceptedProbeChangesNothing | handlers/authorizationCode.js:41-47 | An accepting probe leaves the reply, the writes and the provider call as they are with no inner-authorization URL. |
| AuthorizationCode.NotFoundIsUnauthorized | handlers/authorizationCode.js:32-35 | A read whose first error starts with "Could not find data" gives 401, whatever errors follow, once setup succeeds. |
| AuthorizationCode.StoreTokenHandler | handlers/authorizationCode.js:194-226 | Checks the method (POST or PUT), then the body, then `token`. Each failure is a 400 with no query, read or write, and 400 happens exactly when a check fails. A valid request provisions, then upserts under the caller's row. It gives 200 with the token for users and "" for the service account, or 500 if setup or upsert fails. |
| AuthorizationCode.LogoutHandler | handlers/authorizationCode.js:254-268 | After setup, edits the caller's row to the `emptyToken` fields. It gives 200 with the callback page if the edit is ok and 500 otherwise. A failed setup rejects without writing. |
| ClientCredentials.DoesTokenNeedRefresh | handlers/clientCredentials.js:64-70 | A refresh is needed exactly when the access token is falsy, the expiry is missing, or `now >= expiry - 300000`. |
| ClientCredentials.NeedRefresh | handlers/clientCredentials.js:31 | A read that is not ok always triggers a refresh. Otherwise the row test decides. |
| ClientCredentials.RefreshClientCredentials | handlers/clientCredentials.js:53-62 | The stored record holds the grant's access token and expiry, `errorCode` null and `refreshToken` "". |
| ClientCredentials.RefreshClientCredentialsHandler | handlers/clientCredentials.js:25-51 | Reads and writes only the row `clientCredentialsToken`, whoever calls, and replies only 200 or 500. The provider is called exactly when a refresh is needed; if not, the reply is 200 with no write. A rejected grant gives 500 with no write. A grant is upserted, and the reply is 200 exactly when the upsert is ok. A failed setup gives 500. |
| Lifecycle.LogoutIsIdempotent | handlers/authorizationCode.js:254-277 | Two logouts send the same fields. Applying the second after the first leaves the table unchanged. |
| Lifecycle.RefreshAfterLogoutIsNoContent | handlers/authorizationCode.js:78-80 | A refresh that reads the row a logout left gives 204. It makes no provider call, no probe and no write. |
| Lifecycle.RefreshedTokenIsServedUntilItsWindow | handlers/authorizationCode.js:93-107 | A successful refresh that yields a non-empty access token and a non-empty refresh token replies 200 and stores the new token. Until its window opens, the next refresh serves that token from the table without a provider call or write, provided that refresh does not probe or the probe accepts. A rejecting probe gives 204 instead. |
| Lifecycle.StoredTokenIsServed | handlers/authorizationCode.js:194-226 | A token with a non-empty access token and a non-empty refresh token, stored through `/token`, is served by the next `/refresh` until its window opens, without a provider call, provided that refresh does not probe or the probe accepts. |
| Lifecycle.ClientCredentialsStableWithinWindow | handlers/clientCredentials.js:25-79 | Once a client-credentials token is stored, the next call within its window calls no provider and writes nothing. The stored row has refreshToken "" and errorCode null. |

Four behaviours of the code are easy to overlook:

- A probe rejection always blanks the row and sets no error code.
- The logout placeholder takes its timestamp once, when the module loads (`Config.moduleLoadTime`).
- A table the lookup finds is never checked for missing columns again (`Table.ExistingTableNeverRechecked`).
- A failed creation of any one column rejects the whole column batch.

## Left out

- `oauth2InitHandler`, `oauth2CallbackHandler`, `generateCallbackHtml`, `createErrorHtml`: HTML rendering around foreign OAuth library calls. Logout's pages are the body tags `LogoutPage` and `LogoutErrorPage`.
- `initHandler`, `getRoutes`, the `ClientCredentialsHandler` constructor and the configuration and bootstrap files: wiring only. The configuration is the `Config` value and the constants.
- simple-oauth2 (`accessToken.create`, `refresh`, `getToken`): foreign library. Its results are inputs, already normalised to access token, expiry and refresh token.
- `fetch` in the probe: an input outcome (`ProbeOutcome`).
- `JSON.parse` of the `/token` body: the body is an already-parsed optional value. A malformed body that makes `JSON.parse` throw is not modelled.
- Error message texts in `packageError` payloads and the thrown errors: kept only as causes (`ErrorDetail`).
- The un-awaited `editRow` on a probe rejection: it is a write that is issued but has no outcome.
- A row read whose promise rejects instead of resolving with `ok: false`: not modelled. Such a read fails the same way a failed setup does.
- AuthorizationCode.LogoutHandler: an `editRow` whose promise rejects, or whose not-ok result has no `errors` list, leaves the handler's promise rejected with no reply, since logout has no catch. The model's `writeOk = false` always gives 500 with the error page, so it does not model that unhandled case.
- `global.APP_ID` in the query texts and in the creation input: the application scope is not modelled.
- Floating-point date arithmetic: the comparisons are stated over the reals. Stored expiries are integer milliseconds, and the exact ISO string test for the epoch sentinel is equality with instant 0.
- AuthorizationCode.RefreshDecision: reads a null expiry as the epoch, as `new Date(null)` does. An `undefined` expiry would give an invalid date, whose comparisons are all false, and that case is not modelled.
- `Promise.all` in column creation: modelled as one sequential batch that succeeds or fails as a whole.
- The in-place `columnData.input.tableId = tableId` in column creation: it writes the id into the shared module-level column descriptors. The model leaves the descriptors constant and carries the id in each `CreateColumn(column, tableId)` query. For one provisioning pass the queries are the same.
- The datastore's behaviour on `editRow` and `upsertRow` is external. `TokenStore.ApplyWrite` assumes that both overwrite the fields they send and keep an unsent `errorCode`.

## Findings

| source | as written | input that shows it | evidently intended | confidence | as-written member | corrected member |
|---|---|---|---|---|---|---|
| datastore/table.js:50-54 | The filter tests `columnsSubset.includes(column.name)`. Descriptors keep their name under `input.name`, so the key is undefined, and the list holds `{name}` records, so nothing ever matches. | existing columns accessToken, refreshToken | create only access_expires_at and errorCode | high (not executed) | Table.ColumnsToCreateAsWritten and Table.SetupOAuthTable (shown by Table.AsWrittenRecreatesExistingColumns) | Table.ColumnsToCreate and Table.SetupOAuthTableByName |
| datastore/table.js:60-64 | Any four existing columns count as complete, whatever their names. | existing columns a, b, c, d | create all four required columns | medium (not executed) | Table.ColumnsToCreateAsWritten and Table.SetupOAuthTable (shown by Table.CountShortcutIgnoresNames) | Table.ColumnsToCreate and Table.SetupOAuthTableByName |

The handlers provision through `Table.SetupOAuthTable`, which runs the column diff as written. The corrected pair is `Table.CreateOAuthTableColumnsByName` and `Table.SetupOAuthTableByName`. `Table.SetupsAgreeWithoutRequiredColumns` shows that the two setups coincide on a table holding none of the required columns and not exactly four columns. A freshly created table, with no columns at all, is in that state. The bugs therefore change what the handlers see only when a freshly created table already reports columns.

=== FILE: authorization_code.dfy ===
/** The authorization-code handlers (handlers/authorizationCode.js):
    `/refresh`, `/token` and `/logout`, each a pure function from the
    request, the clock, the configuration and every I/O outcome to the
    handler's effect. */
module AuthorizationCode {
  import opened Common
  import opened Table
  import opened TokenStore
  import opened Responses

  /** The external id shared by every service-account caller. */
  const SERVICE_ACCOUNT_EXTERNAL_KEY: string := "serviceAccount"

  /** The text a row read's first error carries when the row is missing. */
  const NOT_FOUND_MESSAGE: string := "Could not find data"

  /** How long before its expiry a token is refreshed. */
  const EXPIRATION_WINDOW_IN_SECONDS: int := 300

  /** Process-wide settings: the optional inner-authorization URL, and the
      instant the module was loaded, which is when `emptyToken` took its
      timestamp. */
  datatype Config = Config(innerAuthorizationUrl: Option<string>, moduleLoadTime: int)

  /** The parsed `/token` body; `token` is `None` when falsy or missing. */
  datatype StoreBody = StoreBody(token: Option<TokenMaterial>)

  /** The parts of a request the handlers look at: its method, the
      `service_account` query parameter and the parsed body, if any. */
  datatype Request = Request(httpMethod: string, serviceAccount: Option<string>, body: Option<StoreBody>)

  datatype StorageTokenInfo = StorageTokenInfo(externalId: string, returnTokenBack: bool)

  /** The inner-authorization fetch: a response with its `ok` flag, or a
      network failure. */
  datatype ProbeOutcome = Responded(ok: bool) | FetchFailed

  /** Every I/O outcome `/refresh` may read. `providerRefresh` is the
      refreshed token, `None` when the provider rejects the refresh. */
  datatype RefreshOutcomes = RefreshOutcomes(
    provisioning: ProvisionOutcomes,
    rowRead: RowRead,
    probe: ProbeOutcome,
    providerRefresh: Option<TokenMaterial>,
    upsertOk: bool)

  /** Every I/O outcome `/token` and `/logout` may read. */
  datatype WriteOutcomes = WriteOutcomes(provisioning: ProvisionOutcomes, writeOk: bool)

  // ---------------------------------------------------------------------
  // Identity, error classification, probe
  // ---------------------------------------------------------------------

  /** `getStorageTokenInfo`: service-account callers share one row and do
      not get the token back; everyone else uses their own username. */
  function GetStorageTokenInfo(serviceAccount: Option<string>, username: string): (info: StorageTokenInfo)
    ensures info.returnTokenBack <==> serviceAccount != Some("true")
    ensures info.returnTokenBack ==> info.externalId == username
    ensures !info.returnTokenBack ==> info.externalId == SERVICE_ACCOUNT_EXTERNAL_KEY
  {
    var isServiceAccount := serviceAccount == Some("true");
    StorageTokenInfo(if isServiceAccount then SERVICE_ACCOUNT_EXTERNAL_KEY else username, !isServiceAccount)
  }

  /** Two callers who are not service accounts share a row only when they
      share a username, unless one of them is literally named like the
      service-account key. */
  lemma DistinctUsersDistinctRows(sa1: Option<string>, u1: string, sa2: Option<string>, u2: string)
    requires GetStorageTokenInfo(sa1, u1).externalId == GetStorageTokenInfo(sa2, u2).externalId
    requires u1 != SERVICE_ACCOUNT_EXTERNAL_KEY && u2 != SERVICE_ACCOUNT_EXTERNAL_KEY
    ensures (sa1 == Some("true")) == (sa2 == Some("true"))
    ensures sa1 != Some("true") ==> u1 == u2
  {
  }

  /** `couldNotFindData`: the first error's message contains the not-found
      text. The source reads `errors[0]`, so it needs at least one error. */
  function CouldNotFindData(errorMessages: seq<string>): (r: bool)
    requires |errorMessages| > 0
    ensures r <==> exists i :: OccursAt(errorMessages[0], NOT_FOUND_MESSAGE, i)
  {
    IndexOf(errorMessages[0], NOT_FOUND_MESSAGE) != -1
  }

  /** `getInnerAuthorizationResponse`: only an ok response accepts; a
      non-ok response or a failed fetch rejects (fail closed). */
  function InnerAuthorizationAccepted(probe: ProbeOutcome): (accepted: bool)
    ensures accepted <==> probe == Responded(true)
    ensures probe.FetchFailed? ==> !accepted
  {
    match probe
    case Responded(ok) => ok
    case FetchFailed => false
  }

  /** The probe runs when a URL is configured and the stored access token
      is truthy. */
  predicate ShouldProbe(config: Config, row: TokenRow) {
    Truthy(config.innerAuthorizationUrl) && Truthy(row.accessToken)
  }

  // ---------------------------------------------------------------------
  // Refresh policy
  // ---------------------------------------------------------------------

  /** `isEmptyToken`: either token is undefined, null or `""`. The source's
      separate `=== ""` test adds nothing to the falsiness test. */
  function IsEmptyToken(row: TokenRow): (r: bool)
    ensures r <==> !(Truthy(row.accessToken) && Truthy(row.refreshToken))
  {
    var isUndefined := !Truthy(row.accessToken) || !Truthy(row.refreshToken);
    var isEmpty := row.accessToken == Some("") || row.refreshToken == Some("");
    isUndefined || isEmpty
  }

  /** `isAccessTokenValidForever`: no refresh token, an access token, and
      the epoch sentinel as expiry. Every such row is also empty, which is
      why this test must come first. */
  function IsAccessTokenValidForever(row: TokenRow): (r: bool)
    ensures r ==> IsEmptyToken(row) && Truthy(row.accessToken)
    ensures r ==> row.accessExpiresAt == Some(0)
  {
    !Truthy(row.refreshToken) && Truthy(row.accessToken) && row.accessExpiresAt == Some(EPOCH_SENTINEL)
  }

  /** The expiry the OAuth library parses from the row: a `null` expiry
      becomes the epoch. */
  function ExpiryMillis(row: TokenRow): int {
    match row.accessExpiresAt
    case Some(t) => t
    case None => EPOCH_SENTINEL
  }

  /** `doesTokenNeedRefresh`: the source compares seconds, dividing
      milliseconds by 1000; over the reals that is the same as comparing
      milliseconds against the expiry less 300000. */
  function DoesTokenNeedRefresh(expiresAt: int, now: int): (r: bool)
    ensures r <==> now >= expiresAt - 300000
  {
    var expirationTimeInSeconds := expiresAt as real / 1000.0;
    var expirationWindowStart := expirationTimeInSeconds - EXPIRATION_WINDOW_IN_SECONDS as real;
    var nowInSeconds := now as real / 1000.0;
    nowInSeconds >= expirationWindowStart
  }

  datatype Decision = ValidForever | EmptyToken | NeedsRefresh | Fresh

  /** The order `getStandardAuthorizationResponse` checks a row in. */
  function RefreshDecision(row: TokenRow, now: int): (d: Decision)
    ensures d == ValidForever <==>
              Truthy(row.accessToken) && !Truthy(row.refreshToken) && row.accessExpiresAt == Some(0)
    ensures d == EmptyToken <==>
              !(Truthy(row.accessToken) && Truthy(row.refreshToken)) && d != ValidForever
    ensures d == NeedsRefresh <==>
              Truthy(row.accessToken) && Truthy(row.refreshToken) && now >= ExpiryMillis(row) - 300000
    ensures d == Fresh <==>
              Truthy(row.accessToken) && Truthy(row.refreshToken) && now < ExpiryMillis(row) - 300000
  {
    if IsAccessTokenValidForever(row) then ValidForever
    else if IsEmptyToken(row) then EmptyToken
    else if DoesTokenNeedRefresh(ExpiryMillis(row), now) then NeedsRefresh
    else Fresh
  }

  /** The clock only decides between refreshing and serving: a row valid
      forever or empty at one instant is so at every instant. */
  lemma DecisionClockIndependence(row: TokenRow, now1: int, now2: int)
    ensures RefreshDecision(row, now1) == ValidForever <==> RefreshDecision(row, now2) == ValidForever
    ensures RefreshDecision(row, now1) == EmptyToken <==> RefreshDecision(row, now2) == EmptyToken
  {
  }

  /** Once a token needs refreshing it keeps needing it as time passes. */
  lemma NeedsRefreshIsMonotone(row: TokenRow, now1: int, now2: int)
    requires now1 <= now2
    requires RefreshDecision(row, now1) == NeedsRefresh
    ensures RefreshDecision(row, now2) == NeedsRefresh
  {
  }

  /** Expiry in 600 s is served as is; expiry in 100 s is refreshed. */
  lemma RefreshWindowScenarios(row: TokenRow, now: int)
    requires Truthy(row.accessToken) && Truthy(row.refreshToken)
    ensures row.accessExpiresAt == Some(now + 600000) ==> RefreshDecision(row, now) == Fresh
    ensures row.accessExpiresAt == Some(now + 100000) ==> RefreshDecision(row, now) == NeedsRefresh
  {
  }

  // ---------------------------------------------------------------------
  // Writes
  // ---------------------------------------------------------------------

  /** `emptyToken`: blank tokens and the module-load timestamp, the same
      fields every time. */
  function EmptyTokenFields(config: Config): (f: RowFields)
    ensures f.accessToken == "" && f.refreshToken == ""
    ensures f.accessExpiresAt == config.moduleLoadTime && f.errorCode == Untouched
  {
    RowFields("", config.moduleLoadTime, "", Untouched)
  }

  /** The fields `storeTokenData` upserts from a token. */
  function TokenFields(token: TokenMaterial): (f: RowFields)
    ensures f.accessToken == token.accessToken && f.accessExpiresAt == token.expiresAt
    ensures f.refreshToken == token.refreshToken && f.errorCode == Untouched
  {
    RowFields(token.accessToken, token.expiresAt, token.refreshToken, Untouched)
  }

  /** The body `storeTokenData` sends on success. */
  function StoredTokenBody(info: StorageTokenInfo, token: TokenMaterial): Body {
    if info.returnTokenBack then TokenJson(token) else Text("")
  }

  /** `storeTokenData`: upsert the token under the caller's row; the body
      on success, `None` when the upsert is not ok and the call throws. */
  function StoreTokenData(info: StorageTokenInfo, token: TokenMaterial, upsertOk: bool): (r: (Write, Option<Body>))
    ensures r.0 == Write(Upsert, info.externalId, TokenFields(token))
    ensures r.1.Some? <==> upsertOk
    ensures upsertOk && info.returnTokenBack ==> r.1 == Some(TokenJson(token))
    ensures upsertOk && !info.returnTokenBack ==> r.1 == Some(Text(""))
  {
    (Write(Upsert, info.externalId, TokenFields(token)), if upsertOk then Some(StoredTokenBody(info, token)) else None)
  }

  // ---------------------------------------------------------------------
  // /refresh
  // ---------------------------------------------------------------------

  /** `getStandardAuthorizationResponse`, as an effect with no queries and
      no reads of its own. */
  function StandardAuthorizationResponse(row: TokenRow, now: int, info: StorageTokenInfo,
                                         providerRefresh: Option<TokenMaterial>, upsertOk: bool): (e: Effect)
    ensures e.queries == [] && e.rowsRead == [] && !e.probed
    ensures e.providerCalled <==> RefreshDecision(row, now) == NeedsRefresh
    // valid forever: 200 with no body, whatever the clock says
    ensures RefreshDecision(row, now) == ValidForever ==> e == ReplyOnly(Respond(200, NoBody))
    // empty: 204
    ensures RefreshDecision(row, now) == EmptyToken ==> e == ReplyOnly(Respond(204, NoBody))
    // fresh: 200 with the stored token for users, "" for the service account
    ensures RefreshDecision(row, now) == Fresh ==>
              e == ReplyOnly(Respond(200, Text(if info.returnTokenBack then row.accessToken.value else "")))
    // needs refresh: a rejected refresh gives 401 and writes nothing
    ensures RefreshDecision(row, now) == NeedsRefresh && providerRefresh.None? ==>
              e.writes == [] && e.reply == Respond(401, ErrorJson(RefreshRejected))
    // a successful refresh upserts under the same row; 200 only if that write is ok
    ensures RefreshDecision(row, now) == NeedsRefresh && providerRefresh.Some? ==>
              && e.writes == [Write(Upsert, info.externalId, TokenFields(providerRefresh.value))]
              && e.reply == (if upsertOk then Respond(200, StoredTokenBody(info, providerRefresh.value))
                             else Respond(401, ErrorJson(RefreshRejected)))
  {
    match RefreshDecision(row, now)
    case ValidForever => ReplyOnly(Respond(200, NoBody))
    case EmptyToken => ReplyOnly(Respond(204, NoBody))
    case Fresh =>
      ReplyOnly(Respond(200, Text(if info.returnTokenBack then row.accessToken.value else "")))
    case NeedsRefresh =>
      match providerRefresh
      case None => Effect(Respond(401, ErrorJson(RefreshRejected)), [], [], [], true, false)
      case Some(token) =>
        var (write, body) := StoreTokenData(info, token, upsertOk);
        var reply := if body.Some? then Respond(200, body.value) else Respond(401, ErrorJson(RefreshRejected));
        Effect(reply, [], [], [write], true, false)
  }

  /** `refreshHandler`. */
  function RefreshHandler(config: Config, req: Request, username: string, now: int, io: RefreshOutcomes): (e: Effect)
    ensures e.queries == SetupOAuthTable(io.provisioning).queries
    // a rejected setup rejects the handler with nothing read or written
    ensures SetupOAuthTable(io.provisioning).result.Failure? ==>
              e.reply == Unhandled && e.rowsRead == [] && e.writes == [] && !e.providerCalled && !e.probed
    // the row read is keyed by the caller's identity
    ensures SetupOAuthTable(io.provisioning).result.Success? ==>
              e.rowsRead == [GetStorageTokenInfo(req.serviceAccount, username).externalId]
    // a failed read: 401 when the row is not found, 500 otherwise, nothing written
    ensures io.rowRead.ReadFailed? && |io.rowRead.errorMessages| > 0 && SetupOAuthTable(io.provisioning).result.Success? ==>
              && e.writes == [] && !e.providerCalled && !e.probed
              && e.reply == Respond(if exists i :: OccursAt(io.rowRead.errorMessages[0], NOT_FOUND_MESSAGE, i) then 401 else 500,
                                    ErrorJson(ReadFailure(io.rowRead.errorMessages)))
    ensures io.rowRead.ReadFailed? ==> e.writes == [] && !e.providerCalled && !e.probed
    ensures io.rowRead.ReadFailed? && |io.rowRead.errorMessages| == 0 ==> e.reply == Unhandled
    // the probe runs only for a configured URL and a truthy stored token
    ensures e.probed <==>
              SetupOAuthTable(io.provisioning).result.Success? && io.rowRead.ReadOk? && ShouldProbe(config, io.rowRead.data)
    // a rejecting probe blanks the row and answers 204 without refreshing
    ensures e.probed && !InnerAuthorizationAccepted(io.probe) ==>
              && e.reply == Respond(204, NoBody) && !e.providerCalled
              && e.writes == [Write(Edit, GetStorageTokenInfo(req.serviceAccount, username).externalId, EmptyTokenFields(config))]
    // otherwise a read row gets the standard policy
    ensures SetupOAuthTable(io.provisioning).result.Success? && io.rowRead.ReadOk? && (!e.probed || InnerAuthorizationAccepted(io.probe)) ==>
              var std := StandardAuthorizationResponse(io.rowRead.data, now, GetStorageTokenInfo(req.serviceAccount, username),
                                                       io.providerRefresh, io.upsertOk);
              e.reply == std.reply && e.writes == std.writes && e.providerCalled == std.providerCalled
    // every write goes to the caller's row
    ensures forall w :: w in e.writes ==> w.externalId == GetStorageTokenInfo(req.serviceAccount, username).externalId
  {
    var setup := SetupOAuthTable(io.provisioning);
    match setup.result
    case Failure(_) => Effect(Unhandled, setup.queries, [], [], false, false)
    case Success(_) =>
      var info := GetStorageTokenInfo(req.serviceAccount, username);
      var base := Effect(Unhandled, setup.queries, [info.externalId], [], false, false);
      match io.rowRead
      case ReadFailed(errors) =>
        if |errors| == 0 then base
        else if CouldNotFindData(errors) then base.(reply := Respond(401, ErrorJson(ReadFailure(errors))))
        else base.(reply := Respond(500, ErrorJson(ReadFailure(errors))))
      case ReadOk(row) =>
        if ShouldProbe(config, row) && !InnerAuthorizationAccepted(io.probe) then
          base.(reply := Respond(204, NoBody), writes := [Write(Edit, info.externalId, EmptyTokenFields(config))], probed := true)
        else
          var std := StandardAuthorizationResponse(row, now, info, io.providerRefresh, io.upsertOk);
          base.(reply := std.reply, writes := std.writes, providerCalled := std.providerCalled,
                probed := ShouldProbe(config, row))
  }

  /** An accepting probe changes nothing but the fact that it ran: the
      reply and writes are those without an inner-authorization URL. */
  lemma AcceptedProbeChangesNothing(config: Config, req: Request, username: string, now: int, io: RefreshOutcomes)
    requires InnerAuthorizationAccepted(io.probe)
    ensures var e := RefreshHandler(config, req, username, now, io);
            var plain := RefreshHandler(config.(innerAuthorizationUrl := None), req, username, now, io);
            e.reply == plain.reply && e.writes == plain.writes && e.providerCalled == plain.providerCalled
  {
  }

  /** A read whose first error starts with the not-found text gives 401
      whenever the setup succeeds, whatever errors follow it. */
  lemma NotFoundIsUnauthorized(config: Config, req: Request, username: string, now: int, io: RefreshOutcomes,
                                detail: string, rest: seq<string>)
    requires SetupOAuthTable(io.provisioning).result.Success?
    requires io.rowRead == ReadFailed([NOT_FOUND_MESSAGE + detail] + rest)
    ensures RefreshHandler(config, req, username, now, io).reply.Respond?
    ensures RefreshHandler(config, req, username, now, io).reply.status == 401
  {
    assert OccursAt(NOT_FOUND_MESSAGE + detail, NOT_FOUND_MESSAGE, 0);
  }

  // ---------------------------------------------------------------------
  // /token
  // ---------------------------------------------------------------------

  /** The checks `storeTokenHandler` makes before touching storage. */
  predicate ValidStoreRequest(req: Request) {
    (req.httpMethod == "POST" || req.httpMethod == "PUT") && req.body.Some? && req.body.value.token.Some?
  }

  /** `storeTokenHandler`. */
  function StoreTokenHandler(req: Request, username: string, io: WriteOutcomes): (e: Effect)
    // method, then body, then token: each failure is a 400 with no I/O at all
    ensures req.httpMethod != "POST" && req.httpMethod != "PUT" ==> e == ReplyOnly(Respond(400, ErrorJson(InvalidMethod)))
    ensures (req.httpMethod == "POST" || req.httpMethod == "PUT") && req.body.None? ==>
              e == ReplyOnly(Respond(400, ErrorJson(MissingBody)))
    ensures (req.httpMethod == "POST" || req.httpMethod == "PUT") && req.body.Some? && req.body.value.token.None? ==>
              e == ReplyOnly(Respond(400, ErrorJson(MissingToken)))
    ensures e.reply.Respond? && e.reply.status == 400 <==> !ValidStoreRequest(req)
    ensures !e.providerCalled && !e.probed && e.rowsRead == []
    // a valid request provisions, then upserts the token under the caller's row
    ensures ValidStoreRequest(req) ==> e.queries == SetupOAuthTable(io.provisioning).queries
    ensures ValidStoreRequest(req) && SetupOAuthTable(io.provisioning).result.Failure? ==>
              e.reply == Respond(500, ErrorJson(StoreFailed)) && e.writes == []
    ensures ValidStoreRequest(req) && SetupOAuthTable(io.provisioning).result.Success? ==>
              var info := GetStorageTokenInfo(req.serviceAccount, username);
              var token := req.body.value.token.value;
              && e.writes == [Write(Upsert, info.externalId, TokenFields(token))]
              && e.reply == (if io.writeOk then Respond(200, StoredTokenBody(info, token))
                             else Respond(500, ErrorJson(StoreFailed)))
  {
    if req.httpMethod != "POST" && req.httpMethod != "PUT" then ReplyOnly(Respond(400, ErrorJson(InvalidMethod)))
    else if req.body.None? then ReplyOnly(Respond(400, ErrorJson(MissingBody)))
    else if req.body.value.token.None? then ReplyOnly(Respond(400, ErrorJson(MissingToken)))
    else
      var info := GetStorageTokenInfo(req.serviceAccount, username);
      var setup := SetupOAuthTable(io.provisioning);
      match setup.result
      case Failure(_) => Effect(Respond(500, ErrorJson(StoreFailed)), setup.queries, [], [], false, false)
      case Success(_) =>
        var (write, body) := StoreTokenData(info, req.body.value.token.value, io.writeOk);
        var reply := if body.Some? then Respond(200, body.value) else Respond(500, ErrorJson(StoreFailed));
        Effect(reply, setup.queries, [], [write], false, false)
  }

  // ---------------------------------------------------------------------
  // /logout
  // ---------------------------------------------------------------------

  /** `logoutHandler`: overwrite the caller's row with `emptyToken`. */
  function LogoutHandler(config: Config, req: Request, username: string, io: WriteOutcomes): (e: Effect)
    ensures e.queries == SetupOAuthTable(io.provisioning).queries
    ensures !e.providerCalled && !e.probed && e.rowsRead == []
    ensures SetupOAuthTable(io.provisioning).result.Failure? ==> e.reply == Unhandled && e.writes == []
    ensures SetupOAuthTable(io.provisioning).result.Success? ==>
              && e.writes == [Write(Edit, GetStorageTokenInfo(req.serviceAccount, username).externalId, EmptyTokenFields(config))]
              && e.reply == (if io.writeOk then Respond(200, LogoutPage) else Respond(500, LogoutErrorPage))
  {
    var setup := SetupOAuthTable(io.provisioning);
    match setup.result
    case Failure(_) => Effect(Unhandled, setup.queries, [], [], false, false)
    case Success(_) =>
      var info := GetStorageTokenInfo(req.serviceAccount, username);
      var write := Write(Edit, info.externalId, EmptyTokenFields(config));
      Effect(if io.writeOk then Respond(200, LogoutPage) else Respond(500, LogoutErrorPage), setup.queries, [], [write], false, false)
  }
}

=== FILE: client_credentials.dfy ===
/** The client-credentials handler (handlers/clientCredentials.js): one
    shared row, refreshed from the provider when it cannot be read, is
    incomplete, or is inside the 300 s window before expiry. */
module ClientCredentials {
  import opened Common
  import opened Table
  import opened TokenStore
  import opened Responses

  /** The one row every caller shares. */
  const DATASTORE_EXTERNAL_ID: string := "clientCredentialsToken"

  const EXPIRATION_WINDOW_IN_SECONDS: int := 300

  /** The text of every 500 reply. */
  const FAILURE_MESSAGE: string := "Refresh client credentials token failed"

  /** Every I/O outcome the handler may read. `grant` is the provider's
      token, `None` when the grant request is rejected. */
  datatype Outcomes = Outcomes(
    provisioning: ProvisionOutcomes,
    rowRead: RowRead,
    grant: Option<TokenMaterial>,
    upsertOk: bool)

  /** `doesTokenNeedRefresh`: an incomplete row, or the clock inside the
      window. A missing expiry parses to an invalid date, whose comparison
      is false, but then the row is incomplete anyway. */
  function DoesTokenNeedRefresh(row: TokenRow, now: int): (r: bool)
    ensures r <==> !Truthy(row.accessToken) || row.accessExpiresAt.None?
                   || now >= row.accessExpiresAt.value - 300000
  {
    var isTokenIncomplete := !Truthy(row.accessToken) || row.accessExpiresAt.None?;
    var shouldRefresh :=
      match row.accessExpiresAt
      case None => false
      case Some(expiresAt) =>
        var expirationTimeInSeconds := expiresAt as real / 1000.0;
        var nowInSeconds := now as real / 1000.0;
        nowInSeconds >= expirationTimeInSeconds - EXPIRATION_WINDOW_IN_SECONDS as real;
    isTokenIncomplete || shouldRefresh
  }

  /** `!row.ok || doesTokenNeedRefresh(row.data)`. */
  function NeedRefresh(read: RowRead, now: int): (r: bool)
    ensures read.ReadFailed? ==> r
    ensures read.ReadOk? ==> (r <==> DoesTokenNeedRefresh(read.data, now))
  {
    read.ReadFailed? || DoesTokenNeedRefresh(read.data, now)
  }

  /** `refreshClientCredentials`: the record stored from a grant always
      clears the error code and has an empty refresh token. */
  function RefreshClientCredentials(grant: TokenMaterial): (f: RowFields)
    ensures f.accessToken == grant.accessToken && f.accessExpiresAt == grant.expiresAt
    ensures f.errorCode == ClearedToNull && f.refreshToken == ""
  {
    RowFields(grant.accessToken, grant.expiresAt, "", ClearedToNull)
  }

  /** `refreshClientCredentialsHandler`. It takes no caller: whoever calls,
      the same row is read and written. */
  function RefreshClientCredentialsHandler(now: int, io: Outcomes): (e: Effect)
    ensures e.queries == SetupOAuthTable(io.provisioning).queries
    ensures !e.probed
    ensures forall id :: id in e.rowsRead ==> id == DATASTORE_EXTERNAL_ID
    ensures forall w :: w in e.writes ==> w.externalId == DATASTORE_EXTERNAL_ID && w.kind == Upsert
    ensures e.reply == Respond(200, NoBody) || e.reply == Respond(500, Text(FAILURE_MESSAGE))
    // a rejected setup: 500 and nothing else
    ensures SetupOAuthTable(io.provisioning).result.Failure? ==>
              e.reply == Respond(500, Text(FAILURE_MESSAGE)) && e.rowsRead == [] && e.writes == [] && !e.providerCalled
    ensures SetupOAuthTable(io.provisioning).result.Success? ==>
              e.rowsRead == [DATASTORE_EXTERNAL_ID] && (e.providerCalled <==> NeedRefresh(io.rowRead, now))
    // nothing to refresh: 200, no provider call, no write
    ensures !e.providerCalled ==> e.writes == []
    ensures SetupOAuthTable(io.provisioning).result.Success? && !NeedRefresh(io.rowRead, now) ==>
              e.reply == Respond(200, NoBody)
    // a rejected grant: 500, no write
    ensures e.providerCalled && io.grant.None? ==> e.reply == Respond(500, Text(FAILURE_MESSAGE)) && e.writes == []
    // a grant is stored, and the reply is 200 exactly when that write is ok
    ensures e.providerCalled && io.grant.Some? ==>
              && e.writes == [Write(Upsert, DATASTORE_EXTERNAL_ID, RefreshClientCredentials(io.grant.value))]
              && (e.reply == Respond(200, NoBody) <==> io.upsertOk)
  {
    var setup := SetupOAuthTable(io.provisioning);
    var failed := Respond(500, Text(FAILURE_MESSAGE));
    match setup.result
    case Failure(_) => Effect(failed, setup.queries, [], [], false, false)
    case Success(_) =>
      if !NeedRefresh(io.rowRead, now) then
        Effect(Respond(200, NoBody), setup.queries, [DATASTORE_EXTERNAL_ID], [], false, false)
      else
        match io.grant
        case None => Effect(failed, setup.queries, [DATASTORE_EXTERNAL_ID], [], true, false)
        case Some(grant) =>
          var write := Write(Upsert, DATASTORE_EXTERNAL_ID, RefreshClientCredentials(grant));
          Effect(if io.upsertOk then Respond(200, NoBody) else failed, setup.queries, [DATASTORE_EXTERNAL_ID], [write], true, false)
  }
}

=== FILE: common.dfy ===
/** Small value helpers shared by the handlers and the table provisioner:
    optional values, success/failure results, JavaScript truthiness of an
    optional string, and `String.prototype.indexOf`. */
module Common {

  /** A value that may be absent (`undefined` or `null` in the original). */
  datatype Option<+T> = None | Some(value: T)

  /** The outcome of a step that either yields a value or is rejected. */
  datatype Result<+T, +E> = Success(value: T) | Failure(error: E)

  /** JavaScript truthiness of an optional string field: absent, `null`
      and `""` are falsy, every other string is truthy. */
  predicate Truthy(s: Option<string>) {
    s.Some? && s.value != ""
  }

  /** `p` occurs in `s` starting at position `i`. */
  predicate OccursAt(s: string, p: string, i: int) {
    0 <= i && i + |p| <= |s| && s[i..i + |p|] == p
  }

  /** `s.indexOf(p, k)`: the first position at or after `k` where `p`
      occurs in `s`, or -1 when there is none. */
  function IndexOfFrom(s: string, p: string, k: nat): (r: int)
    requires k <= |s| + 1
    ensures r == -1 || (k <= r && OccursAt(s, p, r))
    ensures r == -1 ==> forall j :: k <= j ==> !OccursAt(s, p, j)
    ensures r != -1 ==> forall j :: k <= j < r ==> !OccursAt(s, p, j)
    decreases |s| + 1 - k
  {
    if k + |p| > |s| then -1
    else if s[k..k + |p|] == p then k
    else IndexOfFrom(s, p, k + 1)
  }

  /** `s.indexOf(p)`. */
  function IndexOf(s: string, p: string): (r: int)
    ensures r == -1 <==> forall j :: !OccursAt(s, p, j)
    ensures r != -1 ==> OccursAt(s, p, r) && forall j :: j < r ==> !OccursAt(s, p, j)
  {
    IndexOfFrom(s, p, 0)
  }

  /** `xs` is `ys` with some elements removed and the rest in order. */
  predicate SubsequenceOf<T(==)>(xs: seq<T>, ys: seq<T>)
    decreases |ys|
  {
    || xs == []
    || (&& ys != []
        && ((xs[0] == ys[0] && SubsequenceOf(xs[1..], ys[1..])) || SubsequenceOf(xs, ys[1..])))
  }

  /** Every sequence is a subsequence of itself. */
  lemma {:induction false} SubsequenceOfReflexive<T>(xs: seq<T>)
    ensures SubsequenceOf(xs, xs)
    decreases |xs|
  {
    if xs != [] {
      SubsequenceOfReflexive(xs[1..]);
    }
  }
}

=== FILE: lifecycle.dfy ===
/** Properties that relate one handler call to the next through the
    token table: what a later call reads is what an earlier call wrote. */
module Lifecycle {
  import opened Common
  import opened Table
  import opened TokenStore
  import opened Responses
  import opened AuthorizationCode
  import CC = ClientCredentials

  /** Logging out twice leaves the row as logging out once: both calls send
      the same `emptyToken` fields, whatever happened in between. */
  lemma LogoutIsIdempotent(config: Config, req: Request, username: string, s: StoreState,
                           io1: WriteOutcomes, io2: WriteOutcomes)
    requires SetupOAuthTable(io1.provisioning).result.Success?
    requires SetupOAuthTable(io2.provisioning).result.Success?
    ensures LogoutHandler(config, req, username, io1).writes == LogoutHandler(config, req, username, io2).writes
    ensures var s1 := ApplyWrites(s, LogoutHandler(config, req, username, io1).writes);
            ApplyWrites(s1, LogoutHandler(config, req, username, io2).writes) == s1
  {
    var w := LogoutHandler(config, req, username, io1).writes[0];
    ApplySingleWrite(s, w);
    ApplySingleWrite(ApplyWrite(s, w), w);
    ApplyWriteIdempotent(s, w);
  }

  /** After a successful logout, refreshing the same identity finds an empty row and
      answers 204 without calling the provider, probing or writing. */
  lemma RefreshAfterLogoutIsNoContent(config: Config, req: Request, username: string, now: int,
                                      s: StoreState, logoutIo: WriteOutcomes, io: RefreshOutcomes)
    requires SetupOAuthTable(logoutIo.provisioning).result.Success? && logoutIo.writeOk
    requires SetupOAuthTable(io.provisioning).result.Success?
    requires var id := GetStorageTokenInfo(req.serviceAccount, username).externalId;
             var s1 := ApplyWrites(s, LogoutHandler(config, req, username, logoutIo).writes);
             id in s1 && io.rowRead == ReadOk(s1[id])
    ensures var e := RefreshHandler(config, req, username, now, io);
            e.reply == Respond(204, NoBody) && e.writes == [] && !e.providerCalled && !e.probed
  {
    var id := GetStorageTokenInfo(req.serviceAccount, username).externalId;
    var w := LogoutHandler(config, req, username, logoutIo).writes[0];
    ApplySingleWrite(s, w);
    assert io.rowRead.data.accessToken == Some("");
    assert RefreshDecision(io.rowRead.data, now) == EmptyToken;
  }

  /** A successful refresh stores the new token, and until the new window
      opens the next refresh, when it does not probe or the probe accepts,
      serves it from the table: 200 with the new access token for users, no
      provider call, no write. */
  lemma RefreshedTokenIsServedUntilItsWindow(config: Config, req: Request, username: string, s: StoreState,
                                             now1: int, io1: RefreshOutcomes, now2: int, io2: RefreshOutcomes)
    requires RefreshHandler(config, req, username, now1, io1).providerCalled
    requires io1.providerRefresh.Some? && io1.upsertOk
    requires io1.providerRefresh.value.accessToken != "" && io1.providerRefresh.value.refreshToken != ""
    requires now2 < io1.providerRefresh.value.expiresAt - 300000
    requires SetupOAuthTable(io2.provisioning).result.Success?
    requires !Truthy(config.innerAuthorizationUrl) || InnerAuthorizationAccepted(io2.probe)
    requires var id := GetStorageTokenInfo(req.serviceAccount, username).externalId;
             var s1 := ApplyWrites(s, RefreshHandler(config, req, username, now1, io1).writes);
             id in s1 && io2.rowRead == ReadOk(s1[id])
    ensures var info := GetStorageTokenInfo(req.serviceAccount, username);
            var t := io1.providerRefresh.value;
            && RefreshHandler(config, req, username, now1, io1).reply == Respond(200, StoredTokenBody(info, t))
            && RefreshHandler(config, req, username, now2, io2)
               == Effect(Respond(200, Text(if info.returnTokenBack then t.accessToken else "")),
                         SetupOAuthTable(io2.provisioning).queries, [info.externalId], [], false,
                         ShouldProbe(config, io2.rowRead.data))
  {
    var info := GetStorageTokenInfo(req.serviceAccount, username);
    var e1 := RefreshHandler(config, req, username, now1, io1);
    var t := io1.providerRefresh.value;
    assert e1.writes == [Write(Upsert, info.externalId, TokenFields(t))];
    ApplySingleWrite(s, e1.writes[0]);
    var row := io2.rowRead.data;
    assert row.accessToken == Some(t.accessToken) && row.refreshToken == Some(t.refreshToken);
    assert RefreshDecision(row, now2) == Fresh;
  }

  /** A token stored through `/token` is served by the next `/refresh`
      until its window opens, when that refresh does not probe or the probe
      accepts. */
  lemma StoredTokenIsServed(config: Config, req: Request, username: string, s: StoreState,
                            storeIo: WriteOutcomes, now: int, io: RefreshOutcomes)
    requires ValidStoreRequest(req)
    requires SetupOAuthTable(storeIo.provisioning).result.Success? && storeIo.writeOk
    requires var t := req.body.value.token.value;
             t.accessToken != "" && t.refreshToken != "" && now < t.expiresAt - 300000
    requires SetupOAuthTable(io.provisioning).result.Success?
    requires !Truthy(config.innerAuthorizationUrl) || InnerAuthorizationAccepted(io.probe)
    requires var id := GetStorageTokenInfo(req.serviceAccount, username).externalId;
             var s1 := ApplyWrites(s, StoreTokenHandler(req, username, storeIo).writes);
             id in s1 && io.rowRead == ReadOk(s1[id])
    ensures var info := GetStorageTokenInfo(req.serviceAccount, username);
            var t := req.body.value.token.value;
            && StoreTokenHandler(req, username, storeIo).reply == Respond(200, StoredTokenBody(info, t))
            && RefreshHandler(config, req, username, now, io).reply
               == Respond(200, Text(if info.returnTokenBack then t.accessToken else ""))
            && !RefreshHandler(config, req, username, now, io).providerCalled
  {
    var info := GetStorageTokenInfo(req.serviceAccount, username);
    var t := req.body.value.token.value;
    var w := Write(Upsert, info.externalId, TokenFields(t));
    ApplySingleWrite(s, w);
    assert RefreshDecision(io.rowRead.data, now) == Fresh;
  }

  /** A client-credentials token just stored is not refreshed again before
      its window opens: the next call makes no provider call and no write.
      The stored row has an empty refresh token and no error code. */
  lemma ClientCredentialsStableWithinWindow(s: StoreState, now1: int, io1: CC.Outcomes, now2: int, io2: CC.Outcomes)
    requires CC.RefreshClientCredentialsHandler(now1, io1).providerCalled
    requires io1.grant.Some? && io1.upsertOk && io1.grant.value.accessToken != ""
    requires now2 < io1.grant.value.expiresAt - 300000
    requires SetupOAuthTable(io2.provisioning).result.Success?
    requires var s1 := ApplyWrites(s, CC.RefreshClientCredentialsHandler(now1, io1).writes);
             CC.DATASTORE_EXTERNAL_ID in s1 && io2.rowRead == ReadOk(s1[CC.DATASTORE_EXTERNAL_ID])
    ensures io2.rowRead.data.refreshToken == Some("") && io2.rowRead.data.errorCode == None
    ensures var e2 := CC.RefreshClientCredentialsHandler(now2, io2);
            e2.reply == Respond(200, NoBody) && !e2.providerCalled && e2.writes == []
  {
    var e1 := CC.RefreshClientCredentialsHandler(now1, io1);
    ApplySingleWrite(s, e1.writes[0]);
    assert !CC.NeedRefresh(io2.rowRead, now2);
  }
}

=== FILE: queries.dfy ===
/** The fixed table name, the four required column descriptors and the
    shapes of the GraphQL queries the provisioner issues. The query text
    itself is opaque; a query is identified by its kind and the arguments
    the provisioner fills in. */
module Queries {
  import opened Common

  /** Name of the token table, used by both lookups and by creation. */
  const TABLE_NAME: string := "OAuth Table"

  /** Description given to the table when it is created. */
  const TABLE_DESCRIPTION: string := "Contains token data for OAuth"

  /** Length bound of the encrypted text columns. */
  const TOKEN_TEXT_LENGTH: nat := 4096

  datatype ColumnType = TEXT | DATETIME | NUMBER

  datatype NumberType = INTEGER

  /** The `input` object of one column-creation request. Fields that the
      source leaves out of a descriptor are `None`. */
  datatype ColumnDescriptor = ColumnDescriptor(
    columnType: ColumnType,
    name: string,
    textLength: Option<nat>,
    textEncrypted: Option<bool>,
    numberType: Option<NumberType>,
    description: string)

  const ACCESS_TOKEN_COLUMN: ColumnDescriptor :=
    ColumnDescriptor(TEXT, "accessToken", Some(TOKEN_TEXT_LENGTH), Some(true), None,
                     "Holds the current access token")

  const TOKEN_EXPIRATION_COLUMN: ColumnDescriptor :=
    ColumnDescriptor(DATETIME, "access_expires_at", None, None, None,
                     "Holds the date and time at which the current access token expires")

  const REFRESH_TOKEN_COLUMN: ColumnDescriptor :=
    ColumnDescriptor(TEXT, "refreshToken", Some(TOKEN_TEXT_LENGTH), Some(true), None,
                     "Holds the current refresh token")

  const ERROR_CODE_COLUMN: ColumnDescriptor :=
    ColumnDescriptor(NUMBER, "errorCode", None, None, Some(INTEGER),
                     "Holds the latest error code")

  /** The required columns, in creation order. */
  const TABLE_COLUMNS: seq<ColumnDescriptor> :=
    [ACCESS_TOKEN_COLUMN, TOKEN_EXPIRATION_COLUMN, REFRESH_TOKEN_COLUMN, ERROR_CODE_COLUMN]

  /** The names of the given columns, in order. */
  function ColumnNames(columns: seq<ColumnDescriptor>): (names: seq<string>)
    ensures |names| == |columns|
    ensures forall i :: 0 <= i < |columns| ==> names[i] == columns[i].name
  {
    if columns == [] then [] else [columns[0].name] + ColumnNames(columns[1..])
  }

  /** One GraphQL request of the provisioner. */
  datatype Query =
    | FindTable(tableName: string)
    | CreateTable(name: string, description: string)
    | FindColumns(tableName: string)
    | CreateColumn(column: ColumnDescriptor, tableId: string)

  /** The table lookup, the column lookup and the table creation request. */
  const FIND_TABLE_QUERY: Query := FindTable(TABLE_NAME)
  const FIND_COLUMNS_QUERY: Query := FindColumns(TABLE_NAME)
  const CREATE_TABLE_QUERY: Query := CreateTable(TABLE_NAME, TABLE_DESCRIPTION)

  /** The table the lookups and the creation refer to is the same one. */
  lemma LookupsAndCreationShareTableName()
    ensures FIND_TABLE_QUERY.tableName == FIND_COLUMNS_QUERY.tableName == CREATE_TABLE_QUERY.name
    ensures CREATE_TABLE_QUERY.name == "OAuth Table"
  {
  }

  /** Exactly four required columns, with pairwise distinct names, named
      accessToken, access_expires_at, refreshToken and errorCode. */
  lemma RequiredColumnNames()
    ensures |TABLE_COLUMNS| == 4
    ensures ColumnNames(TABLE_COLUMNS) == ["accessToken", "access_expires_at", "refreshToken", "errorCode"]
    ensures forall i, j :: 0 <= i < j < |TABLE_COLUMNS| ==> TABLE_COLUMNS[i].name != TABLE_COLUMNS[j].name
  {
    var names := ColumnNames(TABLE_COLUMNS);
    assert names[0] == "accessToken";
    assert names[1] == "access_expires_at";
    assert names[2] == "refreshToken";
    assert names[3] == "errorCode";
  }

  /** The two token columns are encrypted text of length 4096; the expiry
      column is a date-time and the error column an integer number. */
  lemma RequiredColumnTypes()
    ensures forall c :: c in [ACCESS_TOKEN_COLUMN, REFRESH_TOKEN_COLUMN] ==>
              c.columnType == TEXT && c.textLength == Some(4096) && c.textEncrypted == Some(true)
    ensures TOKEN_EXPIRATION_COLUMN.columnType == DATETIME
    ensures ERROR_CODE_COLUMN.columnType == NUMBER && ERROR_CODE_COLUMN.numberType == Some(INTEGER)
    ensures TABLE_COLUMNS[0] == ACCESS_TOKEN_COLUMN && TABLE_COLUMNS[2] == REFRESH_TOKEN_COLUMN
    ensures TABLE_COLUMNS[1] == TOKEN_EXPIRATION_COLUMN && TABLE_COLUMNS[3] == ERROR_CODE_COLUMN
  {
  }
}

=== FILE: responses.dfy ===
/** What a handler call does, seen from outside: the reply it sends, the
    provisioning queries it issued, the rows it read and wrote, and whether
    it called the OAuth provider or the inner-authorization endpoint. */
module Responses {
  import opened Queries
  import opened TokenStore

  /** The `{error: ...}` payloads, by cause. */
  datatype ErrorDetail =
    | ReadFailure(errorMessages: seq<string>)   // the failed row read, packaged whole
    | RefreshRejected                          // fixed message about an expired or invalid code
    | InvalidMethod
    | MissingBody
    | MissingToken
    | StoreFailed                              // the message of a rejected setup or upsert

  datatype Body =
    | NoBody
    | Text(text: string)
    | TokenJson(token: TokenMaterial)
    | ErrorJson(error: ErrorDetail)
    | LogoutPage            // callback page posting `{}`
    | LogoutErrorPage       // callback page posting the write's first error

  /** A sent response, or a handler promise that rejects before sending one. */
  datatype Reply = Respond(status: int, body: Body) | Unhandled

  datatype Effect = Effect(
    reply: Reply,
    queries: seq<Query>,
    rowsRead: seq<string>,
    writes: seq<Write>,
    providerCalled: bool,
    probed: bool)

  /** Nothing but a reply: no query, read, write, provider call or probe. */
  function ReplyOnly(reply: Reply): (e: Effect)
    ensures e.reply == reply && e.queries == [] && e.rowsRead == [] && e.writes == []
    ensures !e.providerCalled && !e.probed
  {
    Effect(reply, [], [], [], false, false)
  }
}

=== FILE: table.dfy ===
/** Lazy provisioning of the token table (datastore/table.js): look the
    table up by name; when it is missing, create it and then create the
    required columns it lacks as one all-or-nothing batch.

    Every GraphQL result is an input. A provisioning pass is a pure function
    from those results to the table id (or the rejection) together with the
    queries it issued, in order. */
module Table {
  import opened Common
  import opened Queries

  /** The `data.node` of the table lookup: `null` (or no `data` at all), or
      a node whose `table` is the id found or `null`. */
  datatype LookupNode = NullNode | Node(table: Option<string>)

  /** Result of the table lookup: whether it carried an `errors` field, and
      its node. */
  datatype FindTableResult = FindTableResult(hasErrors: bool, node: LookupNode)

  /** Result of the table creation request. */
  datatype CreateTableResult = TableCreated(tableId: string) | CreateTableErrors(firstError: string)

  /** All results a provisioning pass may read. `existingColumns` is the
      name list the column lookup returns (`None` when the lookup holds no
      table, so that reading its columns throws). `failingColumns` names the
      columns whose creation result carries an `errors` field. */
  datatype ProvisionOutcomes = ProvisionOutcomes(
    findTable: FindTableResult,
    createTable: CreateTableResult,
    existingColumns: Option<seq<string>>,
    failingColumns: set<string>)

  datatype ProvisionError =
    | TableLookupUnreadable   // the node, or the table read for its id, is null: the read throws
    | TableCreationFailed(error: string)
    | ColumnLookupUnreadable
    | ColumnCreationFailed

  /** Outcome of a provisioning step and the queries it issued. */
  datatype Provision = Provision(result: Result<string, ProvisionError>, queries: seq<Query>)

  // ---------------------------------------------------------------------
  // Column diff
  // ---------------------------------------------------------------------

  /** The JavaScript values the column diff compares with `includes`. */
  datatype JsValue = Undefined | Str(s: string) | ColumnRecord(name: string)

  /** `column.name` on a required column descriptor: the descriptor object
      holds only `input`, so this property is undefined. */
  function DescriptorNameProperty(column: ColumnDescriptor): JsValue {
    Undefined
  }

  /** `column.input.name`, the name the descriptor actually carries. */
  function InputName(column: ColumnDescriptor): JsValue {
    Str(column.name)
  }

  /** The column lookup returns `{name}` records. */
  function AsColumnRecords(existing: seq<string>): (r: seq<JsValue>)
    ensures |r| == |existing|
    ensures forall v :: v in r ==> v.ColumnRecord?
  {
    if existing == [] then [] else [ColumnRecord(existing[0])] + AsColumnRecords(existing[1..])
  }

  /** The existing names as plain strings. */
  function AsNames(existing: seq<string>): (r: seq<JsValue>)
    ensures forall n :: Str(n) in r <==> n in existing
  {
    if existing == [] then [] else [Str(existing[0])] + AsNames(existing[1..])
  }

  /** `getMissingColumns`, parameterised by how a required column's key is
      read and by what the lookup list holds: the columns of `required` whose
      key is not among `present`, in their order. */
  function MissingColumns(required: seq<ColumnDescriptor>, present: seq<JsValue>, key: ColumnDescriptor -> JsValue)
    : (r: seq<ColumnDescriptor>)
    ensures forall c :: c in r <==> c in required && key(c) !in present
    ensures SubsequenceOf(r, required)
  {
    if required == [] then []
    else if key(required[0]) !in present then [required[0]] + MissingColumns(required[1..], present, key)
    else MissingColumns(required[1..], present, key)
  }

  /** When no key is present the diff keeps every column. */
  lemma {:induction false} MissingColumnsKeepsAll(required: seq<ColumnDescriptor>, present: seq<JsValue>,
                                                  key: ColumnDescriptor -> JsValue)
    requires forall i :: 0 <= i < |required| ==> key(required[i]) !in present
    ensures MissingColumns(required, present, key) == required
  {
    if required != [] {
      assert key(required[0]) !in present;
      MissingColumnsKeepsAll(required[1..], present, key);
    }
  }

  /** `getOAuthTableColumnsToCreate` as written: none existing gives all
      required columns, exactly four existing gives none, and any other count
      falls through to the literal diff on `column.name`. */
  function ColumnsToCreateAsWritten(existing: seq<string>): (r: seq<ColumnDescriptor>)
    ensures SubsequenceOf(r, TABLE_COLUMNS)
    ensures |existing| == 0 ==> r == TABLE_COLUMNS
    ensures |existing| == |TABLE_COLUMNS| ==> r == []
  {
    if |existing| == 0 then
      SubsequenceOfReflexive(TABLE_COLUMNS);
      TABLE_COLUMNS
    else if |existing| == |TABLE_COLUMNS| then []
    else MissingColumns(TABLE_COLUMNS, AsColumnRecords(existing), DescriptorNameProperty)
  }

  /** The as-written diff never excludes anything: `undefined` is never one
      of the `{name}` records, so whenever the count shortcut does not apply
      every required column is scheduled, existing or not. */
  lemma AsWrittenDiffNeverExcludes(existing: seq<string>)
    requires |existing| != |TABLE_COLUMNS|
    ensures ColumnsToCreateAsWritten(existing) == TABLE_COLUMNS
  {
    if |existing| != 0 {
      var present := AsColumnRecords(existing);
      assert Undefined !in present;
      MissingColumnsKeepsAll(TABLE_COLUMNS, present, DescriptorNameProperty);
    }
  }

  /** Counterexample to the literal diff: with accessToken and refreshToken
      present, the as-written code schedules all four columns, two of which
      already exist; the named diff schedules only the two missing ones. */
  lemma AsWrittenRecreatesExistingColumns()
    ensures ColumnsToCreateAsWritten(["accessToken", "refreshToken"]) == TABLE_COLUMNS
    ensures ColumnsToCreate(["accessToken", "refreshToken"]) == [TOKEN_EXPIRATION_COLUMN, ERROR_CODE_COLUMN]
  {
    AsWrittenDiffNeverExcludes(["accessToken", "refreshToken"]);
    ColumnsToCreateOfTwo();
  }

  /** The count shortcut returns nothing whenever four columns exist,
      whatever they are called: here none of the required columns exists,
      yet nothing is scheduled; the named diff schedules all four. */
  lemma CountShortcutIgnoresNames()
    ensures ColumnsToCreateAsWritten(["a", "b", "c", "d"]) == []
    ensures ColumnsToCreate(["a", "b", "c", "d"]) == TABLE_COLUMNS
  {
    ColumnsToCreateNoneMatching(["a", "b", "c", "d"]);
  }

  /** The corrected diff by name: the set difference between the required
      columns and the existing ones, in required order. No count shortcut. */
  function ColumnsToCreate(existing: seq<string>): (r: seq<ColumnDescriptor>)
    ensures forall c :: c in r <==> c in TABLE_COLUMNS && c.name !in existing
    ensures SubsequenceOf(r, TABLE_COLUMNS)
  {
    MissingColumns(TABLE_COLUMNS, AsNames(existing), InputName)
  }

  /** Zero existing columns: every required column is created. */
  lemma {:induction false} ColumnsToCreateNoneMatching(existing: seq<string>)
    requires forall c :: c in TABLE_COLUMNS ==> c.name !in existing
    ensures ColumnsToCreate(existing) == TABLE_COLUMNS
  {
    var present := AsNames(existing);
    forall i | 0 <= i < |TABLE_COLUMNS|
      ensures InputName(TABLE_COLUMNS[i]) !in present
    {
      assert TABLE_COLUMNS[i] in TABLE_COLUMNS;
    }
    MissingColumnsKeepsAll(TABLE_COLUMNS, present, InputName);
  }

  /** The named diff for an existing {accessToken, refreshToken}. */
  lemma ColumnsToCreateOfTwo()
    ensures ColumnsToCreate(["accessToken", "refreshToken"]) == [TOKEN_EXPIRATION_COLUMN, ERROR_CODE_COLUMN]
  {
    var present := AsNames(["accessToken", "refreshToken"]);
    assert present == [Str("accessToken"), Str("refreshToken")];
    var cols := TABLE_COLUMNS;
    assert cols[3..] == [ERROR_CODE_COLUMN];
    assert cols[3..][1..] == [];
    assert MissingColumns(cols[3..], present, InputName) == [ERROR_CODE_COLUMN];
    assert cols[2..][1..] == cols[3..];
    assert MissingColumns(cols[2..], present, InputName) == [ERROR_CODE_COLUMN];
    assert cols[1..][1..] == cols[2..];
    assert MissingColumns(cols[1..], present, InputName) == [TOKEN_EXPIRATION_COLUMN, ERROR_CODE_COLUMN];
  }

  /** After creating exactly the columns the named diff schedules, every
      required column exists: the table reaches the full column set. */
  lemma ColumnsToCreateCompletesTheSet(existing: seq<string>)
    ensures forall c :: c in TABLE_COLUMNS ==> c.name in existing || c in ColumnsToCreate(existing)
  {
  }

  // ---------------------------------------------------------------------
  // Provisioning
  // ---------------------------------------------------------------------

  /** `resultContainsError`: a column creation result carries `errors`. */
  predicate ResultContainsError(column: ColumnDescriptor, failingColumns: set<string>) {
    column.name in failingColumns
  }

  /** The creation query for each column, every one carrying `tableId`. */
  function CreationQueries(columns: seq<ColumnDescriptor>, tableId: string): (qs: seq<Query>)
    ensures |qs| == |columns|
    ensures forall i :: 0 <= i < |columns| ==> qs[i] == CreateColumn(columns[i], tableId)
  {
    if columns == [] then [] else [CreateColumn(columns[0], tableId)] + CreationQueries(columns[1..], tableId)
  }

  /** `results.some(resultContainsError)`. */
  function SomeResultContainsError(columns: seq<ColumnDescriptor>, failingColumns: set<string>): (b: bool)
    ensures b <==> exists i :: 0 <= i < |columns| && ResultContainsError(columns[i], failingColumns)
  {
    if columns == [] then false
    else ResultContainsError(columns[0], failingColumns) || SomeResultContainsError(columns[1..], failingColumns)
  }

  /** `createOAuthTableColumns` once the columns to create are known: an
      empty list is a no-op returning the id; otherwise one creation query
      per column, and the batch succeeds only if no result has errors. */
  function CreateColumnsBatch(tableId: string, columns: seq<ColumnDescriptor>, failingColumns: set<string>): (p: Provision)
    ensures columns == [] ==> p.queries == []
    ensures |p.queries| == |columns|
    ensures forall i :: 0 <= i < |columns| ==> p.queries[i] == CreateColumn(columns[i], tableId)
    ensures forall q :: q in p.queries ==> q.CreateColumn? && q.tableId == tableId
    ensures p.result == Success(tableId) <==> forall c :: c in columns ==> c.name !in failingColumns
    ensures p.result.Failure? ==> p.result.error == ColumnCreationFailed
  {
    if columns == [] then Provision(Success(tableId), [])
    else
      var queries := CreationQueries(columns, tableId);
      if SomeResultContainsError(columns, failingColumns) then Provision(Failure(ColumnCreationFailed), queries)
      else Provision(Success(tableId), queries)
  }

  /** Which column diff a provisioning pass runs: the code's own, or the
      corrected diff by name. */
  datatype ColumnDiff = AsWritten | ByName

  function ColumnsToSchedule(diff: ColumnDiff, existing: seq<string>): seq<ColumnDescriptor> {
    match diff
    case AsWritten => ColumnsToCreateAsWritten(existing)
    case ByName => ColumnsToCreate(existing)
  }

  /** One column lookup, then the batch of the columns `diff` schedules. */
  function ColumnsPass(tableId: string, o: ProvisionOutcomes, diff: ColumnDiff): (p: Provision)
    ensures |p.queries| >= 1 && p.queries[0] == FIND_COLUMNS_QUERY
    ensures o.existingColumns.None? ==> p == Provision(Failure(ColumnLookupUnreadable), [FIND_COLUMNS_QUERY])
    ensures p.result.Success? ==> p.result.value == tableId
    ensures forall q :: q in p.queries[1..] ==> q.CreateColumn? && q.tableId == tableId
    ensures o.existingColumns.Some? ==>
              var columns := ColumnsToSchedule(diff, o.existingColumns.value);
              && p.queries == [FIND_COLUMNS_QUERY] + CreationQueries(columns, tableId)
              && (p.result == Success(tableId) <==> forall c :: c in columns ==> c.name !in o.failingColumns)
              && (p.result.Failure? ==> p.result.error == ColumnCreationFailed)
  {
    match o.existingColumns
    case None => Provision(Failure(ColumnLookupUnreadable), [FIND_COLUMNS_QUERY])
    case Some(existing) =>
      var columns := ColumnsToSchedule(diff, existing);
      var batch := CreateColumnsBatch(tableId, columns, o.failingColumns);
      assert batch.queries == CreationQueries(columns, tableId);
      assert ([FIND_COLUMNS_QUERY] + batch.queries)[1..] == batch.queries;
      Provision(batch.result, [FIND_COLUMNS_QUERY] + batch.queries)
  }

  /** `createOAuthTableColumns` as written, with `getOAuthTableColumnsToCreate`:
      one column lookup; four existing columns of any names create nothing;
      any other count creates every required column, existing or not. */
  function CreateOAuthTableColumns(tableId: string, o: ProvisionOutcomes): (p: Provision)
    ensures |p.queries| >= 1 && p.queries[0] == FIND_COLUMNS_QUERY
    ensures o.existingColumns.None? ==> p == Provision(Failure(ColumnLookupUnreadable), [FIND_COLUMNS_QUERY])
    ensures o.existingColumns.Some? && |o.existingColumns.value| == |TABLE_COLUMNS| ==>
              p == Provision(Success(tableId), [FIND_COLUMNS_QUERY])
    ensures o.existingColumns.Some? && |o.existingColumns.value| != |TABLE_COLUMNS| ==>
              && p.queries == [FIND_COLUMNS_QUERY] + CreationQueries(TABLE_COLUMNS, tableId)
              && (p.result == Success(tableId) <==> forall c :: c in TABLE_COLUMNS ==> c.name !in o.failingColumns)
    ensures p.result.Success? ==> p.result.value == tableId
  {
    assert o.existingColumns.Some? && |o.existingColumns.value| != |TABLE_COLUMNS| ==>
             ColumnsToCreateAsWritten(o.existingColumns.value) == TABLE_COLUMNS by {
      if o.existingColumns.Some? && |o.existingColumns.value| != |TABLE_COLUMNS| {
        AsWrittenDiffNeverExcludes(o.existingColumns.value);
      }
    }
    ColumnsPass(tableId, o, AsWritten)
  }

  /** The corrected column pass: a required column gets a creation query
      exactly when its name is not among the existing ones. */
  function CreateOAuthTableColumnsByName(tableId: string, o: ProvisionOutcomes): (p: Provision)
    ensures |p.queries| >= 1 && p.queries[0] == FIND_COLUMNS_QUERY
    ensures o.existingColumns.None? ==> p == Provision(Failure(ColumnLookupUnreadable), [FIND_COLUMNS_QUERY])
    ensures p.result.Success? ==> p.result.value == tableId
    ensures o.existingColumns.Some? ==>
              forall c :: c in TABLE_COLUMNS ==>
                (CreateColumn(c, tableId) in p.queries <==> c.name !in o.existingColumns.value)
  {
    var p := ColumnsPass(tableId, o, ByName);
    if o.existingColumns.Some? then
      var columns := ColumnsToCreate(o.existingColumns.value);
      var qs := CreationQueries(columns, tableId);
      assert forall c :: CreateColumn(c, tableId) in qs <==> c in columns by {
        forall c ensures CreateColumn(c, tableId) in qs <==> c in columns {
          if c in columns {
            var i :| 0 <= i < |columns| && columns[i] == c;
            assert qs[i] == CreateColumn(c, tableId);
          }
        }
      }
      assert forall q :: q in p.queries <==> q == FIND_COLUMNS_QUERY || q in qs;
      p
    else p
  }

  /** `_createOAuthTable`: a creation result with errors rejects with its
      first error; otherwise the new table's id. */
  function CreateOAuthTable(r: CreateTableResult): (p: Provision)
    ensures p.queries == [CREATE_TABLE_QUERY]
    ensures p.result.Success? <==> r.TableCreated?
    ensures r.TableCreated? ==> p.result.value == r.tableId
    ensures r.CreateTableErrors? ==> p.result.error == TableCreationFailed(r.firstError)
  {
    match r
    case TableCreated(id) => Provision(Success(id), [CREATE_TABLE_QUERY])
    case CreateTableErrors(e) => Provision(Failure(TableCreationFailed(e)), [CREATE_TABLE_QUERY])
  }

  /** The lookup reports the table missing: errors, and a node whose table
      is null. */
  predicate TableMissing(f: FindTableResult) {
    f.hasErrors && f.node == Node(None)
  }

  /** The lookup found the table: a node whose table is not null, with or
      without errors. */
  predicate TableFound(f: FindTableResult) {
    f.node.Node? && f.node.table.Some?
  }

  /** `_createOAuthTableIfNotExists` with the column pass `diff` runs. */
  function SetupPass(o: ProvisionOutcomes, diff: ColumnDiff): (p: Provision)
    ensures |p.queries| >= 1 && p.queries[0] == FIND_TABLE_QUERY
    ensures TableFound(o.findTable) ==> p == Provision(Success(o.findTable.node.table.value), [FIND_TABLE_QUERY])
    ensures !TableFound(o.findTable) && !TableMissing(o.findTable) ==>
              p == Provision(Failure(TableLookupUnreadable), [FIND_TABLE_QUERY])
    ensures TableMissing(o.findTable) && o.createTable.CreateTableErrors? ==>
              p == Provision(Failure(TableCreationFailed(o.createTable.firstError)), [FIND_TABLE_QUERY, CREATE_TABLE_QUERY])
    ensures TableMissing(o.findTable) && o.createTable.TableCreated? ==>
              var columns := ColumnsPass(o.createTable.tableId, o, diff);
              p == Provision(columns.result, [FIND_TABLE_QUERY, CREATE_TABLE_QUERY] + columns.queries)
  {
    if TableMissing(o.findTable) then
      var created := CreateOAuthTable(o.createTable);
      match created.result
      case Failure(e) => Provision(Failure(e), [FIND_TABLE_QUERY] + created.queries)
      case Success(id) =>
        var columns := ColumnsPass(id, o, diff);
        Provision(columns.result, [FIND_TABLE_QUERY, CREATE_TABLE_QUERY] + columns.queries)
    else if TableFound(o.findTable) then
      Provision(Success(o.findTable.node.table.value), [FIND_TABLE_QUERY])
    else
      Provision(Failure(TableLookupUnreadable), [FIND_TABLE_QUERY])
  }

  /** `_oauthTableSetup` as written: the id of a found table after one
      lookup; for a missing table, create it and run the code's column pass.
      Rejections, including a lookup whose node or table is null where it is
      read, propagate unchanged. */
  function SetupOAuthTable(o: ProvisionOutcomes): (p: Provision)
    ensures |p.queries| >= 1 && p.queries[0] == FIND_TABLE_QUERY
    // fast path: the lookup found the table
    ensures TableFound(o.findTable) ==> p == Provision(Success(o.findTable.node.table.value), [FIND_TABLE_QUERY])
    // a null node, or a null table without errors, cannot be read
    ensures !TableFound(o.findTable) && !TableMissing(o.findTable) ==>
              p == Provision(Failure(TableLookupUnreadable), [FIND_TABLE_QUERY])
    // missing table: create it, then provision its columns
    ensures TableMissing(o.findTable) ==> |p.queries| >= 2 && p.queries[1] == CREATE_TABLE_QUERY
    ensures TableMissing(o.findTable) && o.createTable.CreateTableErrors? ==>
              p == Provision(Failure(TableCreationFailed(o.createTable.firstError)), [FIND_TABLE_QUERY, CREATE_TABLE_QUERY])
    // created table: the outcome and queries of the code's column pass follow
    ensures TableMissing(o.findTable) && o.createTable.TableCreated? ==>
              var columns := CreateOAuthTableColumns(o.createTable.tableId, o);
              p == Provision(columns.result, [FIND_TABLE_QUERY, CREATE_TABLE_QUERY] + columns.queries)
  {
    SetupPass(o, AsWritten)
  }

  /** Setup of a table it has just created, spelled out per column-lookup
      outcome: an unreadable lookup rejects; four existing columns, whatever
      their names, create nothing; any other count creates all four columns,
      existing or not, and setup succeeds exactly when none of them fails. */
  lemma SetupColumnPassAsWritten(o: ProvisionOutcomes)
    requires TableMissing(o.findTable) && o.createTable.TableCreated?
    ensures var p := SetupOAuthTable(o);
            o.existingColumns.None? ==>
              p == Provision(Failure(ColumnLookupUnreadable), [FIND_TABLE_QUERY, CREATE_TABLE_QUERY, FIND_COLUMNS_QUERY])
    ensures var p := SetupOAuthTable(o);
            o.existingColumns.Some? && |o.existingColumns.value| == |TABLE_COLUMNS| ==>
              p == Provision(Success(o.createTable.tableId), [FIND_TABLE_QUERY, CREATE_TABLE_QUERY, FIND_COLUMNS_QUERY])
    ensures var p := SetupOAuthTable(o);
            o.existingColumns.Some? && |o.existingColumns.value| != |TABLE_COLUMNS| ==>
              && p.queries == [FIND_TABLE_QUERY, CREATE_TABLE_QUERY, FIND_COLUMNS_QUERY]
                              + CreationQueries(TABLE_COLUMNS, o.createTable.tableId)
              && (p.result == Success(o.createTable.tableId) <==>
                    forall c :: c in TABLE_COLUMNS ==> c.name !in o.failingColumns)
              && (p.result.Failure? ==> p.result.error == ColumnCreationFailed)
  {
    var id := o.createTable.tableId;
    var p := SetupOAuthTable(o);
    var columns := CreateOAuthTableColumns(id, o);
    assert p == Provision(columns.result, [FIND_TABLE_QUERY, CREATE_TABLE_QUERY] + columns.queries);
    match o.existingColumns
    case None =>
      assert columns.queries == [FIND_COLUMNS_QUERY];
    case Some(existing) =>
      if |existing| == |TABLE_COLUMNS| {
        assert columns.queries == [FIND_COLUMNS_QUERY];
      } else {
        AsWrittenDiffNeverExcludes(existing);
        assert columns == ColumnsPass(id, o, AsWritten);
        assert columns.queries == [FIND_COLUMNS_QUERY] + CreationQueries(TABLE_COLUMNS, id);
      }
  }

  /** The corrected setup: as `SetupOAuthTable`, but the column pass runs
      the diff by name, so a successful creation pass leaves every required
      column existing or created, and creates none that exists. */
  function SetupOAuthTableByName(o: ProvisionOutcomes): (p: Provision)
    ensures |p.queries| >= 1 && p.queries[0] == FIND_TABLE_QUERY
    ensures TableFound(o.findTable) ==> p == Provision(Success(o.findTable.node.table.value), [FIND_TABLE_QUERY])
    ensures TableMissing(o.findTable) && o.createTable.TableCreated? ==>
              (p.result.Success? ==> p.result.value == o.createTable.tableId)
    ensures p.result.Success? && TableMissing(o.findTable) ==>
              && o.existingColumns.Some?
              && forall c :: c in TABLE_COLUMNS ==>
                   (c.name in o.existingColumns.value <==> CreateColumn(c, p.result.value) !in p.queries)
  {
    var p := SetupPass(o, ByName);
    if TableMissing(o.findTable) && o.createTable.TableCreated? then
      var id := o.createTable.tableId;
      var columns := CreateOAuthTableColumnsByName(id, o);
      assert forall c :: CreateColumn(c, id) in p.queries <==> CreateColumn(c, id) in columns.queries;
      p
    else p
  }

  /** The code and the corrected setup agree whenever the column lookup,
      if it is read, holds none of the required names and not exactly four
      columns; in particular on a freshly created table with no columns. */
  lemma SetupsAgreeWithoutRequiredColumns(o: ProvisionOutcomes)
    requires o.existingColumns.Some? ==>
               && |o.existingColumns.value| != |TABLE_COLUMNS|
               && forall c :: c in TABLE_COLUMNS ==> c.name !in o.existingColumns.value
    ensures SetupOAuthTable(o) == SetupOAuthTableByName(o)
  {
    if o.existingColumns.Some? {
      AsWrittenDiffNeverExcludes(o.existingColumns.value);
      ColumnsToCreateNoneMatching(o.existingColumns.value);
    }
  }

  /** A table the lookup finds is never re-checked: neither the column
      lookup nor the column creation results matter, and no column query is
      issued, whatever columns the table really has. */
  lemma ExistingTableNeverRechecked(o: ProvisionOutcomes, columns: Option<seq<string>>, failing: set<string>)
    requires TableFound(o.findTable)
    ensures SetupOAuthTable(o) == SetupOAuthTable(o.(existingColumns := columns, failingColumns := failing))
    ensures forall q :: q in SetupOAuthTable(o).queries ==> !q.FindColumns? && !q.CreateColumn? && !q.CreateTable?
  {
  }

  /** A second pass after a successful one, whose lookup now finds the
      created table, issues no creation query at all. */
  lemma SecondSetupCreatesNothing(first: ProvisionOutcomes, second: ProvisionOutcomes)
    requires SetupOAuthTable(first).result.Success?
    requires second.findTable.node == Node(Some(SetupOAuthTable(first).result.value))
    ensures SetupOAuthTable(second) == Provision(SetupOAuthTable(first).result, [FIND_TABLE_QUERY])
  {
  }
}

=== FILE: token_store.dfy ===
/** Token rows of the OAuth table, the writes the handlers issue against
    them, and a map-based picture of the table used to relate one handler
    call to the next. Time is integer milliseconds since
    1970-01-01T00:00:00.000Z. */
module TokenStore {
  import opened Common

  /** The expiry that marks a token valid forever: 1970-01-01T00:00:00.000Z. */
  const EPOCH_SENTINEL: int := 0

  /** A row as `getRowByExternalId` returns its data; a missing or `null`
      field is `None`. */
  datatype TokenRow = TokenRow(
    accessToken: Option<string>,
    accessExpiresAt: Option<int>,
    refreshToken: Option<string>,
    errorCode: Option<int>)

  /** Result of `getRowByExternalId`: ok with the row data, or not ok with
      the messages of its `errors` list. */
  datatype RowRead = ReadOk(data: TokenRow) | ReadFailed(errorMessages: seq<string>)

  /** Token material as the OAuth library hands it over once normalised
      (`access_token`, `expires_at`, `refresh_token`). */
  datatype TokenMaterial = TokenMaterial(accessToken: string, expiresAt: int, refreshToken: string)

  /** Whether a write sets `errorCode: null` or leaves the column alone. */
  datatype ErrorCodeField = Untouched | ClearedToNull

  /** The fields one write sends. */
  datatype RowFields = RowFields(
    accessToken: string,
    accessExpiresAt: int,
    refreshToken: string,
    errorCode: ErrorCodeField)

  datatype WriteKind = Edit | Upsert

  /** One `editRow` or `upsertRow` call, keyed by external id. */
  datatype Write = Write(kind: WriteKind, externalId: string, fields: RowFields)

  /** The table seen as one row per external id. */
  type StoreState = map<string, TokenRow>

  /** The row a write starts from when its key has no row yet. */
  const BLANK_ROW: TokenRow := TokenRow(None, None, None, None)

  /** The table after one write: the fields it sends overwrite the row's,
      an untouched `errorCode` keeps its value, and every other row stays. */
  function ApplyWrite(s: StoreState, w: Write): (s': StoreState)
    ensures s'.Keys == s.Keys + {w.externalId}
    ensures forall id :: id in s && id != w.externalId ==> s'[id] == s[id]
    ensures s'[w.externalId].accessToken == Some(w.fields.accessToken)
    ensures s'[w.externalId].accessExpiresAt == Some(w.fields.accessExpiresAt)
    ensures s'[w.externalId].refreshToken == Some(w.fields.refreshToken)
    ensures w.fields.errorCode == ClearedToNull ==> s'[w.externalId].errorCode == None
    ensures w.fields.errorCode == Untouched && w.externalId in s ==>
              s'[w.externalId].errorCode == s[w.externalId].errorCode
  {
    var old_ := if w.externalId in s then s[w.externalId] else BLANK_ROW;
    var f := w.fields;
    var code := if f.errorCode == ClearedToNull then None else old_.errorCode;
    s[w.externalId := TokenRow(Some(f.accessToken), Some(f.accessExpiresAt), Some(f.refreshToken), code)]
  }

  /** The table after a sequence of writes, in order. */
  function ApplyWrites(s: StoreState, ws: seq<Write>): (s': StoreState)
    ensures s'.Keys == s.Keys + set w | w in ws :: w.externalId
    decreases |ws|
  {
    if ws == [] then s else ApplyWrites(ApplyWrite(s, ws[0]), ws[1..])
  }

  /** Sending the same fields twice leaves the table as sending them once. */
  lemma ApplyWriteIdempotent(s: StoreState, w: Write)
    ensures ApplyWrite(ApplyWrite(s, w), w) == ApplyWrite(s, w)
  {
  }

  /** A one-write sequence is that write. */
  lemma ApplySingleWrite(s: StoreState, w: Write)
    ensures ApplyWrites(s, [w]) == ApplyWrite(s, w)
  {
    assert [w][1..] == [];
  }
}
